=== FILE: README.md ===
# Identity core of the campus-portal backend, in Dafny

This project models the identity rules of a small FastAPI campus-portal backend (`main.py`). It covers three parts:

- **Registration form validation.** `UserRegistration` declares its field constraints. Two validators then look at the role: `validate_usn_format` and `validate_study_year_by_role`.
- **The `users` table.** `register_user` inserts a row and `login_user` reads one back. Login also derives the dashboard label.
- **Two static lookups.** One gives the notes link for a branch. The other gives the schedule key for a USN.

Modules:

| file | module | what it holds |
|---|---|---|
| `results.dfy` | `Results` | `Option` and `Result` |
| `text.dfy` | `Text` | `str.lower()`, `str.upper()`, `\d`, case-insensitive comparison |
| `validators.dfy` | `Validators` | the two validators as functions of the role and branch they can see; the constants; the canonical student USN |
| `registration.dfy` | `Registration` | pydantic's field-by-field pass over the form, as a fold over a field order |
| `passwords.dfy` | `Passwords` | `hash_password` and `verify_password`, modelled symbolically, with the passwords passlib refuses |
| `users.dfy` | `Users` | class `UserTable` (a map from email to row) with `Register` and `Login`; the functions they are proved against; the dashboard |
| `lookups.dfy` | `StudentLookups` | `get_notes_link` and `get_daily_schedule` |

How the form is validated. Pydantic checks the fields in the order the class declares them. For each field it checks the declared type first, then runs the field's validator. A validator sees in `values` only the earlier fields that validated successfully. `Registration.Run` folds over a field order and does exactly that. So the role-dependent checks run only when `role` comes before `usn` and `study_year` in the order. In `main.py` it comes after them (see Findings).

Two regular-expression details are modelled as written:

- `$` also matches just before one final newline. So `"4cb23cs001\n"` passes, and the newline is kept in the stored USN.
- `re.IGNORECASE` applies to the whole pattern. So any mix of case passes, and the stored USN is lower-cased.

Three behaviours of the code differ from what a reader might expect of such a service. The model follows the code:

- The email is normalised only on the way in. `UserRegistration.email` is an `EmailStr`, which lower-cases the domain and stores the result. `Login.email` is a plain `str`, and login looks it up exactly as typed. So an address typed with an upper-case domain registers, but the same address typed the same way cannot log in.
- There is no whitelist.
- The dashboard label for anyone other than a senior student is the role string itself (`student`, `faculty`, `placement_cell`). It is not `student_general` or `faculty_dashboard`.

## Model

| member | source | states |
|---|---|---|
| `Validators.ValidateUsn` | main.py:167-191 | whatever is accepted comes back as the lower-cased input; errors are `usn_validation` or `id_validation`; with no role or an unknown role, nothing is checked |
| `Validators.ExpectedBranchCode` | main.py:173-174 | the code exists exactly when the upper-cased branch is in the six-entry table, and it is that entry |
| `Validators.StudentUsnRule` | main.py:171-182 | for a student with a known branch, the USN is accepted iff it is `4cb` + 2 digits + that branch's code + 3 digits in any case (or that plus one final newline); the stored value is the canonical lower-case form; otherwise the error is `usn_validation` with the message naming the code |
| `Validators.MatchesStudentUsn` | main.py:177-178 | for a lower-case branch code, the anchored IGNORECASE pattern (with `$`'s final-newline allowance) matches iff the lower-cased string is canonical, possibly followed by one newline |
| `Validators.PatternIffAcceptable` | main.py:177-178 | the whole student pattern, `$` included, matches iff the string is an acceptable student USN |
| `Validators.MatchesEmployeeId` | main.py:185 | matches iff the string is exactly ten digits, or ten digits followed by one newline; a match has no upper-case letter and so is its own lower-cased form |
| `Validators.BodyIffCanonical` | main.py:177-178 | the IGNORECASE pattern body matches exactly the strings whose lower-cased form is canonical |
| `Validators.StudentUsnWithoutBranch` | main.py:173-176 | a student with a missing or unknown branch always gets the internal branch-code error |
| `Validators.EmployeeIdRule` | main.py:183-191 | for faculty and placement cell, the USN is accepted iff it is 10 digits (optionally plus one final newline), and is then stored unchanged; otherwise the error is `id_validation` |
| `Validators.StudentUsnWithTrailingNewline` | main.py:177-178 | `$` lets any canonical student USN of an allowed branch through with one newline appended, and the newline is kept |
| `Validators.EmployeeIdWithTrailingNewline` | main.py:185 | `$` lets any 10-digit ID followed by a newline through, unchanged |
| `Validators.ValidateStudyYear` | main.py:193-202 | accepted iff (student ⇒ 1..4) and (faculty or placement cell ⇒ 0); an accepted value is unchanged; otherwise `role_year_mismatch` with the source's message |
| `Validators.AllowedBranchesHaveCodes` | main.py:153-173 | every allowed branch is upper-case and has a USN code |
| `Registration.FirstAt` | main.py:158 | finds the first `@` of the address: nothing before it is an `@`; there is none exactly when the address has no `@` |
| `Registration.NormaliseEmail` | main.py:158 | the `EmailStr` value: same length and same first `@`; the local part up to that `@` is kept; the domain is lower-case and equal to the typed one ignoring case; an address with no `@` is unchanged |
| `Registration.NormaliseEmailIdempotent` | main.py:158 | normalising twice is normalising once; an address is already normalised iff its domain has no upper-case letter |
| `Registration.MixedCaseDomainIsRewritten` | main.py:158 | `a@X.com` is stored as `a@x.com` |
| `Registration.Parse` | main.py:157-165 | a rejection lists at least one field error; an accepted model is the form with its email normalised and its USN lower-cased, all other fields as submitted |
| `Registration.DeclaredConstraintsEnforced` | main.py:153-165 | in any field order, a form that breaks a declared constraint is rejected with that field reported (username < 4, password < 8, branch or role outside its set, year outside 0..4); every accepted form meets them all |
| `Registration.DeclaredOrderSkipsRoleRules` | main.py:162-169 | with the fields in their declared order, a form is accepted iff it meets the declared constraints; the role rules never apply |
| `Registration.DeclaredOrderAcceptsMalformedStudent` | main.py:157-202 | a student with USN `hello` and year 0 is accepted in the declared order and rejected when role comes first |
| `Registration.RoleFirstPass` | main.py:167-202 | with role before usn, a form that meets the declared constraints passes iff both validators accept it, given its role and branch |
| `Registration.RoleFirstEnforcesRoleRules` | main.py:167-202 | with role before usn, a form is accepted iff it meets the declared constraints and the role rules (student: canonical USN for the branch and year 1..4; staff: 10-digit ID and year 0) |
| `Passwords.CheckSecret` | main.py:143-149 | passlib's checks before digesting: a password longer than 4096 characters raises `PasswordSizeError` (checked first); one holding NUL raises `NullPasswordError`; any other passes |
| `Passwords.VerifyPassword` | main.py:147-149 | raises exactly for a refused password, with passlib's error; otherwise true iff the hash is the one the password gives under the hash's own salt |
| `Passwords.HashPassword` | main.py:143-145 | raises exactly for a refused password, with passlib's error; otherwise the hash records the salt and verifies the password it was made from |
| `Passwords.HashThenVerify` | main.py:143-149 | a hash verifies its own password and no other; an accepted wrong attempt gets `false`, a refused one raises |
| `Users.NewRecord` | main.py:227-239 | the stored row keeps the email, full name, username and study year as submitted; the branch is the upper-cased input (equal to it ignoring case); the USN and role are the lower-cased inputs, hence lower-case; the hash verifies the submitted password |
| `Users.ConflictDetail` | main.py:242-247 | email clash first, then USN, then username; the generic message only when no column is named |
| `Users.RegisterOutcome` | main.py:221-249 | a password passlib refuses gives a 500 with the table unchanged, whatever the table holds; otherwise it succeeds iff no row has the email, the lower-cased USN or the username; on success the table gains exactly the new row and every other row is unchanged; on a clash the table is unchanged and the reply is 400 with the priority detail; uniqueness of email, USN and username is preserved |
| `Users.UserTable.constructor` | main.py:75-86 | the table starts empty and valid |
| `Users.UserTable.Register` | main.py:221-249 | keeps the uniqueness invariant; reply and new table are those of `RegisterOutcome` on the old table |
| `Users.Dashboard` | main.py:270 | `student_placements` iff the role is student and the year is 3 or 4 (or the role is itself that label); otherwise the role string |
| `Users.LoginOutcome` | main.py:251-273 | logs in iff the email has a row and the password verifies against its hash; the reply is a 500 iff the email has a row and passlib refuses the password; every other failure is the same 401 `Invalid email or password.`; success returns the stored role and year and their dashboard |
| `Users.RefusedPasswordRevealsAccount` | main.py:258-264 | for a password over 4096 characters, a registered email gets a 500 and an unknown one the 401 |
| `Users.UniformLoginOutcome` | main.py:251-273 | the login with a refused password treated as a wrong one: every failure is the 401; it logs in exactly when the login as written does, and equals it for every accepted password |
| `Users.UniformLoginHidesAccounts` | main.py:258-273 | with the correction, a failed attempt on a registered email gets the same reply as on an unknown one |
| `Users.UserTable.Login` | main.py:251-273 | the reply is `LoginOutcome` on the current table |
| `Users.RegisteredUserCanLogIn` | main.py:221-273 | after a successful registration of a validated model, its (stored, normalised) email and the password log in with the lower-cased role, the submitted year and their dashboard; any other accepted password gets the 401, and a refused one the 500 |
| `Users.SubmittedEmailLogIn` | main.py:158-273 | from the request as submitted: login succeeds under the normalised email, and under the typed email when it was already normalised; on a table holding neither address, a typed email whose domain had an upper-case letter gets the 401 |
| `Users.RepeatedRegistrationRefused` | main.py:242-247 | repeating a successful registration is refused with a 400 and leaves the table unchanged; the detail is `Email already registered.` under the model's priority (see Left out) |
| `StudentLookups.GetNotesLink` | main.py:370-386 | succeeds iff the upper-cased branch is a key; the reply carries that upper-cased branch and its link; otherwise 404 |
| `StudentLookups.NotesLinkIgnoresCase` | main.py:374 | a lower-cased branch gets the same reply |
| `StudentLookups.EveryBranchHasNotes` | main.py:59-66 | every branch the form accepts has a notes link, under its own name |
| `StudentLookups.ScheduleKey` | main.py:395 | the key has min(7, length) characters, is lower-case, and is the start of the lower-cased USN |
| `StudentLookups.GetDailySchedule` | main.py:388-414 | succeeds iff the key is in the schedules table; the reply carries the key and its stored schedule; otherwise 404 |
| `StudentLookups.ScheduleKeyIgnoresCase` | main.py:395 | an upper-cased USN gets the same key |
| `StudentLookups.StudentScheduleKey` | main.py:394-395 | for an accepted student USN, the key is the batch prefix `4cb` + 2 digits + branch code; submitted and stored USN give the same key |

## Findings

| source | as written | input that shows it | evidently intended | confidence | as-written member | corrected member |
|---|---|---|---|---|---|---|
| main.py:258-264 | `verify_password` is called only when the email has a row, and passlib raises for a password over 4096 characters; the exception is not caught | `LoginOutcome(rows, known, p)` with `known in rows` and `\|p\| == 4097` is a 500, while an unknown email with the same `p` gets the 401 | every failed login gets the same 401, so the reply does not tell registered emails apart | medium (not executed) | `Users.RefusedPasswordRevealsAccount` | `Users.UniformLoginHidesAccounts` |
| main.py:162-169 | `role` is declared after `usn` and `study_year`, so `values.get('role')` is always `None` in both validators. Their role branches never run. | `Form("a@x.com", "A", "stud1", "CS", "hello", 0, "student", "abcdefgh")` is accepted | a student's USN and year, and staff IDs and years, are checked against the role | high (not executed) | `Registration.DeclaredOrderSkipsRoleRules` | `Registration.RoleFirstEnforcesRoleRules` |

`Registration.Parse` takes the field order as a parameter. `Registration.DeclaredOrder` is the class as written. `Registration.RoleFirstOrder` is the corrected declaration.

## Left out

- The generative-AI chat endpoint and the AI client set-up (main.py:19-35, 277-316) are left out: they are calls to an external network service.
- The jobs endpoints (main.py:320-366) are left out: they pass rows through to the database with no rules of their own.
- SQLite is not modelled. That covers connection handling, the `init_db` DDL and its loop that seeds schedules, FastAPI routing and CORS, and `database.py`. The users table is an in-memory map. The schedules table is a parameter of `GetDailySchedule`. `json.loads` of the stored schedule is not modelled; the stored text is returned.
- `Passwords.HashPassword`: sha256_crypt is replaced by a symbolic digest. It records the salt and the password, and verification is exact. Collisions and one-wayness are not modelled. The random salt is a parameter. The refused passwords are modelled, with the size limit at passlib's default; `PASSLIB_MAX_PASSWORD_SIZE` can change it, and the length is counted in characters.
- `Registration.NormaliseEmail`: only the lower-casing of the domain after the first `@` is modelled, on ASCII. `EmailStr` also rejects malformed addresses, accepts the `Name <address>` form, strips surrounding whitespace and applies IDNA and Unicode normalisation; none of that is modelled, so every address is accepted. Pydantic's lax-mode coercion of input types is not modelled either: inputs arrive already as strings and integers.
- `Registration.Step`: pydantic's own messages for the length and Literal errors are reduced to `TooShort(n)` and `NotAllowed`. The custom validator errors keep their exact type and message. The HTTP 422 response layout is not modelled.
- Case mapping, `re.IGNORECASE` and `\d` are modelled on ASCII only. Python also applies Unicode case rules and accepts non-ASCII decimal digits for `\d`.
- `Users.RegisterOutcome`: SQLite names a single violated constraint in its error. When several columns clash, the model picks the detail by the code's priority (email, then USN, then username) over all clashing columns. Which constraint SQLite reports first is not modelled.
- `Users.RepeatedRegistrationRefused`: the `Email already registered.` detail follows from the model's priority over all clashing columns. A repeated form clashes on email, USN and username at once. In the program the detail depends on which constraint SQLite names first. Only the 400 reply and the unchanged table are certain there.
- `Users.UserTable.Register` takes a form that has already been validated, as FastAPI passes one to `register_user`. It does not re-check the form. Concurrent registrations are not modelled; each call is atomic.

=== FILE: lookups.dfy ===
/** The two student utility lookups: the notes link for a branch, and the
    daily schedule keyed by the batch prefix of a USN. */
module StudentLookups {
  import opened Text
  import opened Results
  import Validators

  /** Branch to the shared folder holding its notes. */
  const NotesLinks: map<string, string> := map[
    "CS" := "https://drive.google.com/drive/folders/CS_2025_Syllabus_Notes_Link",
    "AI" := "https://drive.google.com/drive/folders/AI_2025_Notes_Repository",
    "IS" := "https://drive.google.com/drive/folders/IS_Core_Materials_Shared",
    "EC" := "https://drive.google.com/drive/folders/EC_Sem_Materials",
    "CSBS" := "https://drive.google.com/drive/folders/CSBS_Notes_Link",
    "CSD" := "https://drive.google.com/drive/folders/CSD_Notes_Link"
  ]

  datatype HttpError = HttpError(status: int, detail: string)

  datatype NotesReply = NotesReply(branch: string, message: string, notesLink: string)

  datatype ScheduleReply = ScheduleReply(usnPrefix: string, message: string, schedule: string)

  /** `get_notes_link`: the branch is looked up upper-cased, and that
      upper-cased name is what the reply (or the 404 detail) carries. */
  function GetNotesLink(branch: string): (r: Result<NotesReply, HttpError>)
    ensures r.Ok? <==> ToUpper(branch) in NotesLinks
    ensures r.Ok? ==> r.value.branch == ToUpper(branch) && r.value.notesLink == NotesLinks[ToUpper(branch)]
    ensures r.Err? ==> r.error.status == 404
  {
    var branchUpper := ToUpper(branch);
    if branchUpper in NotesLinks then
      Ok(NotesReply(branchUpper,
                    "Official Google Drive link for " + branchUpper + " notes is provided below.",
                    NotesLinks[branchUpper]))
    else
      Err(HttpError(404, "Notes link not found for branch: " + branchUpper + ". Please contact the department."))
  }

  /** The lookup ignores case: asking for the lower-cased branch gives the
      same reply. */
  lemma {:induction false} NotesLinkIgnoresCase(branch: string)
    ensures GetNotesLink(ToLower(branch)) == GetNotesLink(branch)
  {
    ToLowerFacts(branch);
  }

  /** Every branch a registration accepts has notes, under its own name. */
  lemma EveryBranchHasNotes(b: string)
    requires b in Validators.AllowedBranches
    ensures GetNotesLink(b).Ok? && GetNotesLink(b).value.branch == b
  {
    Validators.AllowedBranchesHaveCodes(b);
  }

  /** `usn[:7].lower()`: at most seven characters, lower-case, and the
      start of the lower-cased USN. */
  function ScheduleKey(usn: string): (k: string)
    ensures |k| == if |usn| < 7 then |usn| else 7
    ensures IsLowerCase(k)
    ensures k == ToLower(usn)[..|k|]
  {
    var n := if |usn| < 7 then |usn| else 7;
    ToLowerFacts(usn[..n]);
    ToLower(usn[..n])
  }

  /** `get_daily_schedule` over the `schedules` table (prefix to the stored
      schedule text). */
  function GetDailySchedule(schedules: map<string, string>, usn: string): (r: Result<ScheduleReply, HttpError>)
    ensures r.Ok? <==> ScheduleKey(usn) in schedules
    ensures r.Ok? ==> r.value.usnPrefix == ScheduleKey(usn) && r.value.schedule == schedules[ScheduleKey(usn)]
    ensures r.Err? ==> r.error.status == 404
  {
    var usnPrefix := ScheduleKey(usn);
    if usnPrefix !in schedules then
      Err(HttpError(404, "Daily schedule not found for USN prefix: " + usnPrefix + ". The timetable may not be released yet."))
    else
      Ok(ScheduleReply(usnPrefix, "Daily schedule for batch " + usnPrefix + ":", schedules[usnPrefix]))
  }

  /** The schedule lookup ignores the case of the USN. */
  lemma {:induction false} ScheduleKeyIgnoresCase(usn: string)
    ensures ScheduleKey(ToUpper(usn)) == ScheduleKey(usn)
  {
    LowerOfUpper(usn);
  }

  /** For a USN the student validator accepts, the schedule key is the batch
      prefix `4cb` + the two year digits + the branch code, and it is the
      same whether taken from the submitted or the stored USN. */
  lemma {:induction false} StudentScheduleKey(v: string, branch: string)
    requires ToUpper(branch) in Validators.BranchCodes
    requires Validators.ValidateUsn(v, Some("student"), Some(branch)).Ok?
    ensures var u := Validators.ValidateUsn(v, Some("student"), Some(branch)).value;
      var k := ScheduleKey(v);
      && k == ScheduleKey(u)
      && k == u[..7]
      && k[..3] == "4cb" && IsDigits(k[3..5]) && k[5..] == Validators.BranchCodes[ToUpper(branch)]
  {
    var u := Validators.ValidateUsn(v, Some("student"), Some(branch)).value;
    var code := Validators.BranchCodes[ToUpper(branch)];
    Validators.StudentUsnRule(v, branch);
    Validators.BranchCodesAreLowerCase(ToUpper(branch));
    ToLowerFacts(v);
    var c := if Validators.IsStudentUsn(u, code) then u else u[..|u| - 1];
    assert Validators.IsStudentUsn(c, code);
    assert c[..7] == u[..7];
    assert c[..7] == c[..3] + c[3..5] + c[5..7];
  }
}

=== FILE: passwords.dfy ===
/** Password hashing through passlib's `CryptContext(schemes=["sha256_crypt"])`.
    The digest is symbolic: a hash value records the salt it was made with and
    the password it was made from, so verification is exact.  The salt is a
    parameter because passlib draws it at random.  Hashing and verifying both
    refuse some passwords: one longer than passlib's `MAX_PASSWORD_SIZE`, and,
    for sha256_crypt, one holding a NUL character. */
module Passwords {
  import opened Results

  datatype PasswordHash = Sha256Crypt(salt: string, preimage: string)

  /** The exceptions passlib raises for a password it refuses. */
  datatype PasswordError = PasswordSizeError | NullPasswordError

  /** passlib's `MAX_PASSWORD_SIZE`, in characters. */
  const MaxPasswordSize := 4096

  /** A password passlib will hash and verify. */
  predicate PasswordAccepted(password: string)
  {
    |password| <= MaxPasswordSize && '\0' !in password
  }

  /** The checks passlib makes before it digests a password: the size first,
      then the NUL byte. */
  function CheckSecret(password: string): (r: Option<PasswordError>)
    ensures r.None? <==> PasswordAccepted(password)
    ensures |password| > MaxPasswordSize ==> r == Some(PasswordSizeError)
    ensures r == Some(NullPasswordError) ==> '\0' in password
  {
    if |password| > MaxPasswordSize then Some(PasswordSizeError)
    else if '\0' in password then Some(NullPasswordError)
    else None
  }

  /** `hash_password` */
  function HashPassword(password: string, salt: string): (r: Result<PasswordHash, PasswordError>)
    ensures r.Ok? <==> PasswordAccepted(password)
    ensures r.Ok? ==> r.value.salt == salt && VerifyPassword(password, r.value) == Ok(true)
    ensures r.Err? ==> Some(r.error) == CheckSecret(password)
  {
    match CheckSecret(password)
    case Some(e) => Err(e)
    case None => Ok(Sha256Crypt(salt, password))
  }

  /** `verify_password`: a refused password raises; otherwise the verdict is
      whether the hash is the one `plain` gives under the hash's own salt. */
  function VerifyPassword(plain: string, h: PasswordHash): (r: Result<bool, PasswordError>)
    ensures r.Ok? <==> PasswordAccepted(plain)
    ensures r == Ok(true) <==> PasswordAccepted(plain) && h == Sha256Crypt(h.salt, plain)
    ensures r.Err? ==> Some(r.error) == CheckSecret(plain)
  {
    match CheckSecret(plain)
    case Some(e) => Err(e)
    case None => Ok(plain == h.preimage)
  }

  /** A hash verifies the password it was made from and no other accepted
      password, whatever the salt; a refused attempt raises. */
  lemma HashThenVerify(password: string, attempt: string, salt: string)
    ensures HashPassword(password, salt).Ok? ==>
      var h := HashPassword(password, salt).value;
      && (VerifyPassword(attempt, h) == Ok(true) <==> attempt == password)
      && (VerifyPassword(attempt, h) == Ok(false) <==> PasswordAccepted(attempt) && attempt != password)
  {
  }
}

=== FILE: registration.dfy ===
/** The `UserRegistration` form as pydantic validates it: field by field in
    declaration order, each field's declared type first (length minimum or
    Literal set), then its `@validator`, which sees in `values` only the
    fields declared before it that validated successfully.  Every failing
    field is reported; the form is accepted when none fails. */
module Registration {
  import opened Text
  import opened Results
  import opened Validators

  datatype Field = Email | FullName | Username | Branch | Usn | StudyYear | Role | Password

  /** The order in which `UserRegistration` declares its fields: `role` comes
      after `usn` and `study_year`. */
  const DeclaredOrder: seq<Field> := [Email, FullName, Username, Branch, Usn, StudyYear, Role, Password]

  /** The same fields with `role` declared before the two validators that
      read it. */
  const RoleFirstOrder: seq<Field> := [Email, FullName, Username, Branch, Role, Usn, StudyYear, Password]

  /** A registration request, and also the validated model built from it. */
  datatype Form = Form(
    email: string, fullName: string, username: string, branch: string,
    usn: string, studyYear: int, role: string, password: string)

  /** The entries of pydantic's `values` that a later field reads or that
      change the submitted value. */
  datatype Seen = Seen(
    email: Option<string>, branch: Option<string>, role: Option<string>,
    usn: Option<string>, studyYear: Option<int>)

  const NothingSeen := Seen(None, None, None, None, None)

  /** The position of the first `@` in an address, if there is one. */
  function FirstAt(e: string): (k: Option<nat>)
    ensures k.Some? ==> k.value < |e| && e[k.value] == '@' && '@' !in e[..k.value]
    ensures k.None? <==> '@' !in e
  {
    if |e| == 0 then None
    else if e[0] == '@' then Some(0)
    else
      match FirstAt(e[1..])
      case None =>
        assert e == [e[0]] + e[1..];
        None
      case Some(k) =>
        assert e[..k + 1] == [e[0]] + e[1..][..k];
        Some(k + 1)
  }

  /** The first `@` is the one with no `@` before it. */
  lemma FirstAtIs(e: string, k: nat)
    requires k < |e| && e[k] == '@' && '@' !in e[..k]
    ensures FirstAt(e) == Some(k)
  {
    var j := FirstAt(e).value;
    assert forall i :: 0 <= i < k ==> e[i] == e[..k][i];
    assert forall i :: 0 <= i < j ==> e[i] == e[..j][i];
  }

  /** The address as an `EmailStr` field holds it: the domain, everything
      after the first `@`, lower-cased, and the local part kept as typed. */
  function NormaliseEmail(e: string): (n: string)
    ensures |n| == |e| && FirstAt(n) == FirstAt(e)
    ensures FirstAt(e).None? ==> n == e
    ensures FirstAt(e).Some? ==> var k := FirstAt(e).value;
      && n[..k + 1] == e[..k + 1]
      && IsLowerCase(n[k + 1..])
      && SameIgnoringCase(e[k + 1..], n[k + 1..])
  {
    match FirstAt(e)
    case None => e
    case Some(k) =>
      LowerDomainFacts(e, k);
      e[..k + 1] + ToLower(e[k + 1..])
  }

  lemma LowerDomainFacts(e: string, k: nat)
    requires k < |e| && e[k] == '@' && '@' !in e[..k]
    ensures var n := e[..k + 1] + ToLower(e[k + 1..]);
      && |n| == |e| && FirstAt(n) == Some(k)
      && n[..k + 1] == e[..k + 1]
      && IsLowerCase(n[k + 1..])
      && SameIgnoringCase(e[k + 1..], n[k + 1..])
  {
    var d := ToLower(e[k + 1..]);
    var n := e[..k + 1] + d;
    assert n[..k + 1] == e[..k + 1] && n[k + 1..] == d;
    assert n[..k] == e[..k];
    FirstAtIs(n, k);
    ToLowerFacts(e[k + 1..]);
    SameIgnoringCaseLowered(e[k + 1..], d);
  }

  /** Normalising an address that is already normalised changes nothing,
      and an address is normalised exactly when its domain has no upper-case
      letter. */
  lemma NormaliseEmailIdempotent(e: string)
    ensures NormaliseEmail(NormaliseEmail(e)) == NormaliseEmail(e)
    ensures NormaliseEmail(e) == e <==> FirstAt(e).None? || IsLowerCase(e[FirstAt(e).value + 1..])
  {
    var n := NormaliseEmail(e);
    if FirstAt(e).Some? {
      var k := FirstAt(e).value;
      var m := NormaliseEmail(n);
      SameIgnoringCaseLowered(n[k + 1..], m[k + 1..]);
      ToLowerFacts(n[k + 1..]);
      assert m == m[..k + 1] + m[k + 1..] && n == n[..k + 1] + n[k + 1..];
      SameIgnoringCaseLowered(e[k + 1..], n[k + 1..]);
      ToLowerFacts(e[k + 1..]);
      assert e == e[..k + 1] + e[k + 1..];
    }
  }

  /** A mixed-case domain is lower-cased, so the stored address differs from
      the typed one. */
  lemma MixedCaseDomainIsRewritten()
    ensures NormaliseEmail("a@X.com") == "a@x.com"
  {
    assert FirstAt("a@X.com") == Some(1);
  }

  datatype FieldError = FieldError(field: Field, failure: Failure)

  datatype Pass = Pass(errors: seq<FieldError>, seen: Seen)

  /** Validating one field: on success the field's value joins `values`. */
  function Step(f: Field, form: Form, seen: Seen): Result<Seen, Failure>
  {
    match f
    case Email => Ok(seen.(email := Some(NormaliseEmail(form.email))))
    case FullName => Ok(seen)
    case Username => if |form.username| < 4 then Err(TooShort(4)) else Ok(seen)
    case Branch =>
      if form.branch !in AllowedBranches then Err(NotAllowed) else Ok(seen.(branch := Some(form.branch)))
    case Usn =>
      (match ValidateUsn(form.usn, seen.role, seen.branch)
       case Ok(u) => Ok(seen.(usn := Some(u)))
       case Err(e) => Err(e))
    case StudyYear =>
      if !(0 <= form.studyYear <= 4) then Err(NotAllowed)
      else
        (match ValidateStudyYear(form.studyYear, seen.role)
         case Ok(y) => Ok(seen.(studyYear := Some(y)))
         case Err(e) => Err(e))
    case Role =>
      if form.role !in AllowedRoles then Err(NotAllowed) else Ok(seen.(role := Some(form.role)))
    case Password => if |form.password| < 8 then Err(TooShort(8)) else Ok(seen)
  }

  /** Validating the fields `order[i..]` one after another. */
  function Run(order: seq<Field>, i: nat, form: Form, seen: Seen): Pass
    requires i <= |order|
    decreases |order| - i
  {
    if i == |order| then Pass([], seen)
    else
      match Step(order[i], form, seen)
      case Ok(next) => Run(order, i + 1, form, next)
      case Err(e) =>
        var rest := Run(order, i + 1, form, seen);
        Pass([FieldError(order[i], e)] + rest.errors, rest.seen)
  }

  predicate CoversAllFields(order: seq<Field>)
  {
    && Email in order && FullName in order && Username in order && Branch in order
    && Usn in order && StudyYear in order && Role in order && Password in order
  }

  function Failed(errors: seq<FieldError>): set<Field> { set e | e in errors :: e.field }

  /** What `values` may hold about the form: the email normalised, the USN
      lower-cased and the study year as submitted. */
  predicate Faithful(seen: Seen, form: Form)
  {
    && (seen.email.Some? ==> seen.email.value == NormaliseEmail(form.email))
    && (seen.usn.Some? ==> seen.usn.value == ToLower(form.usn))
    && (seen.studyYear.Some? ==> seen.studyYear.value == form.studyYear)
  }

  /** A field that validates keeps `values` faithful to the form, keeps every
      entry already there, and adds its own. */
  lemma StepFills(f: Field, form: Form, seen: Seen)
    requires Faithful(seen, form) && Step(f, form, seen).Ok?
    ensures var next := Step(f, form, seen).value;
      && Faithful(next, form)
      && (f == Email || seen.email.Some? ==> next.email.Some?)
      && (f == Usn || seen.usn.Some? ==> next.usn.Some?)
      && (f == StudyYear || seen.studyYear.Some? ==> next.studyYear.Some?)
  {
  }

  /** A pass without errors has seen every field it went over. */
  lemma {:induction false} CleanRunFillsValues(order: seq<Field>, i: nat, form: Form, seen: Seen)
    requires i <= |order| && Faithful(seen, form)
    requires Run(order, i, form, seen).errors == []
    ensures var s := Run(order, i, form, seen).seen;
      && Faithful(s, form)
      && (Email in order[i..] || seen.email.Some? ==> s.email.Some?)
      && (Usn in order[i..] || seen.usn.Some? ==> s.usn.Some?)
      && (StudyYear in order[i..] || seen.studyYear.Some? ==> s.studyYear.Some?)
    decreases |order| - i
  {
    if i < |order| {
      assert order[i..] == [order[i]] + order[i + 1..];
      var next := Step(order[i], form, seen).value;
      StepFills(order[i], form, seen);
      CleanRunFillsValues(order, i + 1, form, next);
    }
  }

  /** `UserRegistration(**form)`: the validated model, or every field
      error.  The model is the form with its email normalised and its USN
      lower-cased. */
  function Parse(form: Form, order: seq<Field>): (r: Result<Form, seq<FieldError>>)
    requires CoversAllFields(order)
    ensures r.Err? ==> r.error != []
    ensures r.Ok? ==> r.value == form.(email := NormaliseEmail(form.email), usn := ToLower(form.usn))
  {
    var p := Run(order, 0, form, NothingSeen);
    if p.errors != [] then Err(p.errors)
    else
      assert Email in order[0..] && Usn in order[0..] && StudyYear in order[0..] by { assert order[0..] == order; }
      CleanRunFillsValues(order, 0, form, NothingSeen);
      Ok(form.(email := p.seen.email.value, usn := p.seen.usn.value, studyYear := p.seen.studyYear.value))
  }

  // ---------------------------------------------------------------------
  // The declared field constraints: length minimums and Literal sets.

  /** The field `f` breaks its declared type, whatever the other fields. */
  predicate Violates(f: Field, form: Form)
  {
    match f
    case Username => |form.username| < 4
    case Branch => form.branch !in AllowedBranches
    case StudyYear => !(0 <= form.studyYear <= 4)
    case Role => form.role !in AllowedRoles
    case Password => |form.password| < 8
    case _ => false
  }

  predicate FieldConstraintsHold(form: Form)
  {
    && |form.username| >= 4
    && |form.password| >= 8
    && form.branch in AllowedBranches
    && form.role in AllowedRoles
    && 0 <= form.studyYear <= 4
  }

  lemma {:induction false} ViolationReportedFrom(order: seq<Field>, i: nat, form: Form, seen: Seen, f: Field)
    requires i <= |order| && f in order[i..] && Violates(f, form)
    ensures f in Failed(Run(order, i, form, seen).errors)
    decreases |order| - i
  {
    assert order[i..] == [order[i]] + order[i + 1..];
    if order[i] == f {
      var rest := Run(order, i + 1, form, seen);
      assert Step(f, form, seen).Err?;
      assert Run(order, i, form, seen).errors == [FieldError(f, Step(f, form, seen).error)] + rest.errors;
    } else {
      match Step(order[i], form, seen)
      case Ok(next) =>
        ViolationReportedFrom(order, i + 1, form, next, f);
      case Err(e) =>
        ViolationReportedFrom(order, i + 1, form, seen, f);
        var rest := Run(order, i + 1, form, seen);
        assert Run(order, i, form, seen).errors == [FieldError(order[i], e)] + rest.errors;
    }
  }

  /** In any field order, a form that breaks a declared constraint is
      rejected and the offending field is among those reported; so an
      accepted form meets every declared constraint. */
  lemma DeclaredConstraintsEnforced(form: Form, order: seq<Field>)
    requires CoversAllFields(order)
    ensures forall f :: Violates(f, form) ==> Parse(form, order).Err? && f in Failed(Parse(form, order).error)
    ensures Parse(form, order).Ok? ==> FieldConstraintsHold(form)
  {
    assert order[0..] == order;
    forall f | Violates(f, form)
      ensures Parse(form, order).Err? && f in Failed(Parse(form, order).error)
    {
      ViolationReportedFrom(order, 0, form, NothingSeen, f);
    }
    if !FieldConstraintsHold(form) {
      if |form.username| < 4 { assert Violates(Username, form); }
      else if |form.password| < 8 { assert Violates(Password, form); }
      else if form.branch !in AllowedBranches { assert Violates(Branch, form); }
      else if form.role !in AllowedRoles { assert Violates(Role, form); }
      else { assert Violates(StudyYear, form); }
    }
  }

  // ---------------------------------------------------------------------
  // The role-dependent rules, and which field order lets them apply.

  /** What the two validators demand once they can see the role. */
  predicate RoleRulesHold(form: Form)
  {
    && (form.role == "student" ==>
          && form.branch in BranchCodes
          && AcceptableStudentUsn(form.usn, BranchCodes[form.branch])
          && 1 <= form.studyYear <= 4)
    && (form.role in ["faculty", "placement_cell"] ==>
          MatchesEmployeeId(form.usn) && form.studyYear == 0)
  }

  lemma StepThen(order: seq<Field>, i: nat, form: Form, seen: Seen, next: Seen)
    requires i < |order| && Step(order[i], form, seen) == Ok(next)
    ensures Run(order, i, form, seen) == Run(order, i + 1, form, next)
  {
  }

  lemma StepFails(order: seq<Field>, i: nat, form: Form, seen: Seen)
    requires i < |order| && Step(order[i], form, seen).Err?
    ensures Run(order, i, form, seen).errors != []
  {
  }

  lemma ParseAccepts(form: Form, order: seq<Field>)
    requires CoversAllFields(order)
    ensures Parse(form, order).Ok? <==> Run(order, 0, form, NothingSeen).errors == []
  {
  }

  /** The declared-order pass over a form meeting the declared constraints:
      the validators see `branch` but no `role`, and nothing fails. */
  lemma DeclaredPassIsClean(form: Form)
    requires FieldConstraintsHold(form)
    ensures Run(DeclaredOrder, 0, form, NothingSeen).errors == []
  {
    var s0 := NothingSeen.(email := Some(NormaliseEmail(form.email)));
    StepThen(DeclaredOrder, 0, form, NothingSeen, s0);
    DeclaredPassAfterEmail(form, s0);
  }

  lemma DeclaredPassAfterEmail(form: Form, s0: Seen)
    requires FieldConstraintsHold(form)
    requires s0.branch.None? && s0.role.None?
    ensures Run(DeclaredOrder, 1, form, s0).errors == []
  {
    var o := DeclaredOrder;
    var s1 := s0.(branch := Some(form.branch));
    var s2 := s1.(usn := Some(ToLower(form.usn)));
    var s3 := s2.(studyYear := Some(form.studyYear));
    var s4 := s3.(role := Some(form.role));
    StepThen(o, 1, form, s0, s0);
    StepThen(o, 2, form, s0, s0);
    StepThen(o, 3, form, s0, s1);
    StepThen(o, 4, form, s1, s2);
    StepThen(o, 5, form, s2, s3);
    StepThen(o, 6, form, s3, s4);
    StepThen(o, 7, form, s4, s4);
    assert Run(o, 8, form, s4).errors == [];
  }

  /** As declared, `role` comes after `usn` and `study_year`, so neither
      validator ever sees a role: a form is accepted exactly when it meets
      the declared field constraints, whatever its USN looks like and
      whatever year a student or staff member gives. */
  lemma DeclaredOrderSkipsRoleRules(form: Form)
    ensures Parse(form, DeclaredOrder).Ok? <==> FieldConstraintsHold(form)
  {
    DeclaredConstraintsEnforced(form, DeclaredOrder);
    ParseAccepts(form, DeclaredOrder);
    if FieldConstraintsHold(form) {
      DeclaredPassIsClean(form);
    }
  }

  /** A student with a malformed USN and a staff year, accepted as the
      fields are declared and rejected once `role` comes first. */
  lemma DeclaredOrderAcceptsMalformedStudent()
    ensures var form := Form("a@x.com", "A", "stud1", "CS", "hello", 0, "student", "abcdefgh");
      Parse(form, DeclaredOrder).Ok? && Parse(form, RoleFirstOrder).Err?
  {
    var form := Form("a@x.com", "A", "stud1", "CS", "hello", 0, "student", "abcdefgh");
    assert FieldConstraintsHold(form);
    DeclaredOrderSkipsRoleRules(form);
    AllowedBranchesHaveCodes("CS");
    RoleFirstEnforcesRoleRules(form);
  }

  /** The role-first pass over a form meeting the declared constraints: the
      USN and study-year validators see both `branch` and `role`, and the
      pass is clean exactly when both of them accept. */
  lemma RoleFirstPass(form: Form)
    requires FieldConstraintsHold(form)
    ensures Run(RoleFirstOrder, 0, form, NothingSeen).errors == [] <==>
      ValidateUsn(form.usn, Some(form.role), Some(form.branch)).Ok?
      && ValidateStudyYear(form.studyYear, Some(form.role)).Ok?
  {
    var s0 := NothingSeen.(email := Some(NormaliseEmail(form.email)));
    StepThen(RoleFirstOrder, 0, form, NothingSeen, s0);
    RoleFirstPassAfterEmail(form, s0);
  }

  lemma RoleFirstPassAfterEmail(form: Form, s0: Seen)
    requires FieldConstraintsHold(form)
    ensures Run(RoleFirstOrder, 1, form, s0).errors == [] <==>
      ValidateUsn(form.usn, Some(form.role), Some(form.branch)).Ok?
      && ValidateStudyYear(form.studyYear, Some(form.role)).Ok?
  {
    var o := RoleFirstOrder;
    var s1 := s0.(branch := Some(form.branch));
    var s2 := s1.(role := Some(form.role));
    StepThen(o, 1, form, s0, s0);
    StepThen(o, 2, form, s0, s0);
    StepThen(o, 3, form, s0, s1);
    StepThen(o, 4, form, s1, s2);
    var usnCheck := ValidateUsn(form.usn, Some(form.role), Some(form.branch));
    if usnCheck.Err? {
      StepFails(o, 5, form, s2);
    } else {
      var s3 := s2.(usn := Some(usnCheck.value));
      StepThen(o, 5, form, s2, s3);
      if ValidateStudyYear(form.studyYear, Some(form.role)).Err? {
        StepFails(o, 6, form, s3);
      } else {
        var s4 := s3.(studyYear := Some(form.studyYear));
        StepThen(o, 6, form, s3, s4);
        StepThen(o, 7, form, s4, s4);
        assert Run(o, 8, form, s4).errors == [];
      }
    }
  }

  /** With `role` before `usn`, a form is accepted exactly when it meets the
      declared field constraints and the role rules: a student's USN is
      `4cb` + 2 digits + the branch code + 3 digits in any case and the year
      is 1 to 4; a staff member's ID is 10 digits and the year is 0. */
  lemma RoleFirstEnforcesRoleRules(form: Form)
    ensures Parse(form, RoleFirstOrder).Ok? <==>
      FieldConstraintsHold(form) && RoleRulesHold(form)
  {
    DeclaredConstraintsEnforced(form, RoleFirstOrder);
    ParseAccepts(form, RoleFirstOrder);
    if FieldConstraintsHold(form) {
      AllowedBranchesHaveCodes(form.branch);
      RoleFirstPass(form);
      if form.role == "student" {
        StudentUsnRule(form.usn, form.branch);
      } else {
        EmployeeIdRule(form.usn, Some(form.role), Some(form.branch));
      }
    }
  }
}

=== FILE: results.dfy ===
/** Failure-carrying values used across the model: an optional value and a
    result that is either a value or an error. */
module Results {

  datatype Option<+T> = None | Some(value: T)

  datatype Result<+T, +E> = Ok(value: T) | Err(error: E)
}

=== FILE: text.dfy ===
/** The string primitives the core relies on: `str.lower()`, `str.upper()`
    and the regular-expression class `\d`.  Case mapping is modelled on ASCII
    letters only; every other character is left as it is. */
module Text {

  predicate IsDigit(c: char) { '0' <= c <= '9' }

  predicate IsDigits(s: string) { forall i :: 0 <= i < |s| ==> IsDigit(s[i]) }

  predicate IsUpperLetter(c: char) { 'A' <= c <= 'Z' }

  predicate IsLowerLetter(c: char) { 'a' <= c <= 'z' }

  function LowerChar(c: char): char
  {
    if IsUpperLetter(c) then (c as int + 32) as char else c
  }

  function UpperChar(c: char): char
  {
    if IsLowerLetter(c) then (c as int - 32) as char else c
  }

  /** `s.lower()` */
  function ToLower(s: string): (r: string)
    ensures |r| == |s|
    ensures forall i :: 0 <= i < |s| ==> r[i] == LowerChar(s[i])
  {
    seq(|s|, i requires 0 <= i < |s| => LowerChar(s[i]))
  }

  /** `s.upper()` */
  function ToUpper(s: string): (r: string)
    ensures |r| == |s|
    ensures forall i :: 0 <= i < |s| ==> r[i] == UpperChar(s[i])
  {
    seq(|s|, i requires 0 <= i < |s| => UpperChar(s[i]))
  }

  /** No character of `s` is an upper-case letter. */
  predicate IsLowerCase(s: string) { forall i :: 0 <= i < |s| ==> !IsUpperLetter(s[i]) }

  /** Character-by-character equality ignoring ASCII case, as a regular
      expression compiled with IGNORECASE compares a literal. */
  predicate SameIgnoringCase(a: string, b: string)
  {
    |a| == |b| && forall i :: 0 <= i < |a| ==> LowerChar(a[i]) == LowerChar(b[i])
  }

  lemma LowerCharFacts(c: char)
    ensures !IsUpperLetter(LowerChar(c))
    ensures IsDigit(LowerChar(c)) <==> IsDigit(c)
    ensures LowerChar(LowerChar(c)) == LowerChar(c)
    ensures UpperChar(LowerChar(c)) == UpperChar(c)
    ensures !IsUpperLetter(c) ==> LowerChar(c) == c
  {
  }

  /** Lower-casing gives a lower-case string, keeps digits where they were,
      and is idempotent. */
  lemma ToLowerFacts(s: string)
    ensures IsLowerCase(ToLower(s))
    ensures ToLower(ToLower(s)) == ToLower(s)
    ensures IsDigits(ToLower(s)) <==> IsDigits(s)
    ensures ToUpper(ToLower(s)) == ToUpper(s)
    ensures IsLowerCase(s) ==> ToLower(s) == s
  {
    forall i | 0 <= i < |s| ensures !IsUpperLetter(ToLower(s)[i]) {
      LowerCharFacts(s[i]);
    }
    forall i | 0 <= i < |s| ensures ToLower(ToLower(s))[i] == ToLower(s)[i] {
      LowerCharFacts(s[i]);
    }
    forall i | 0 <= i < |s| ensures IsDigit(ToLower(s)[i]) <==> IsDigit(s[i]) {
      LowerCharFacts(s[i]);
    }
    forall i | 0 <= i < |s| ensures ToUpper(ToLower(s))[i] == ToUpper(s)[i] {
      LowerCharFacts(s[i]);
    }
    if IsLowerCase(s) {
      forall i | 0 <= i < |s| ensures ToLower(s)[i] == s[i] {
        LowerCharFacts(s[i]);
      }
    }
  }

  /** Upper-casing first changes nothing about the lower-cased result. */
  lemma LowerOfUpper(s: string)
    ensures ToLower(ToUpper(s)) == ToLower(s)
  {
    forall i | 0 <= i < |s| ensures ToLower(ToUpper(s))[i] == ToLower(s)[i] {
      assert LowerChar(UpperChar(s[i])) == LowerChar(s[i]);
    }
  }

  /** A string matches a lower-case one ignoring case exactly when it
      lower-cases to it. */
  lemma SameIgnoringCaseLowered(a: string, b: string)
    requires IsLowerCase(b)
    ensures SameIgnoringCase(a, b) <==> ToLower(a) == b
  {
    if ToLower(a) == b {
      forall i | 0 <= i < |a| ensures LowerChar(a[i]) == LowerChar(b[i]) {
        LowerCharFacts(b[i]);
      }
    }
    if SameIgnoringCase(a, b) {
      forall i | 0 <= i < |a| ensures ToLower(a)[i] == b[i] {
        LowerCharFacts(b[i]);
      }
    }
  }

  /** Upper-casing changes letters' case only. */
  lemma UpperIgnoresCase(s: string)
    ensures SameIgnoringCase(ToUpper(s), s)
  {
    forall i | 0 <= i < |s| ensures LowerChar(ToUpper(s)[i]) == LowerChar(s[i]) {
      LowerCharFacts(s[i]);
    }
  }

  /** Lower-casing works character by character, so it commutes with
      slicing. */
  lemma ToLowerSlice(s: string, i: nat, j: nat)
    requires i <= j <= |s|
    ensures ToLower(s[i..j]) == ToLower(s)[i..j]
  {
  }
}

=== FILE: users.dfy ===
/** The `users` table and the two endpoints that use it: `register_user`
    inserts one row, `login_user` reads one.  The table is a map from email
    (its primary key) to the row; `username` and `usn` carry UNIQUE
    constraints of their own. */
module Users {
  import opened Text
  import opened Passwords
  import opened Results
  import opened Registration

  datatype UserRecord = UserRecord(
    email: string, fullName: string, username: string, branch: string,
    usn: string, studyYear: int, role: string, passwordHash: PasswordHash)

  type Rows = map<string, UserRecord>

  /** The columns with a uniqueness constraint. */
  datatype Column = EmailColumn | UsnColumn | UsernameColumn

  datatype RegisterReply =
    | Registered(message: string, username: string)
    | RegisterFailed(status: int, detail: string)

  datatype LoginReply =
    | LoggedIn(message: string, role: string, studyYear: int, dashboard: string)
    | LoginFailed(status: int, detail: string)

  const EmailTaken := "Email already registered."
  const UsnTaken := "USN/Employee ID already registered."
  const UsernameTaken := "Username already taken."
  const GenericConflict := "Email, USN/Employee ID, or Username already exists."
  const InvalidCredentials := "Invalid email or password."
  /** The body of the 500 reply to an exception the endpoint does not catch. */
  const InternalServerError := "Internal Server Error"

  /** Every row is stored under its own email, and no two rows share a USN
      or a username. */
  ghost predicate Unique(rows: Rows)
  {
    && (forall e :: e in rows ==> rows[e].email == e)
    && (forall a, b :: a in rows && b in rows && a != b ==>
          rows[a].usn != rows[b].usn && rows[a].username != rows[b].username)
  }

  /** The row `register_user` builds once the password has been hashed:
      branch upper-cased, USN and role lower-cased, the password replaced by
      its hash. */
  function NewRecord(form: Form, salt: string): (rec: UserRecord)
    requires PasswordAccepted(form.password)
    ensures VerifyPassword(form.password, rec.passwordHash) == Ok(true)
    ensures IsLowerCase(rec.usn) && IsLowerCase(rec.role)
    ensures rec.email == form.email && rec.fullName == form.fullName
    ensures rec.username == form.username && rec.studyYear == form.studyYear
    ensures SameIgnoringCase(rec.branch, form.branch) && rec.branch == ToUpper(form.branch)
    ensures rec.usn == ToLower(form.usn) && rec.role == ToLower(form.role)
  {
    ToLowerFacts(form.usn);
    ToLowerFacts(form.role);
    UpperIgnoresCase(form.branch);
    UserRecord(form.email, form.fullName, form.username, ToUpper(form.branch),
               ToLower(form.usn), form.studyYear, ToLower(form.role),
               HashPassword(form.password, salt).value)
  }

  predicate UsnInUse(rows: Rows, usn: string) { exists e :: e in rows && rows[e].usn == usn }

  predicate UsernameInUse(rows: Rows, username: string) { exists e :: e in rows && rows[e].username == username }

  /** The uniqueness constraints a new row would break. */
  function Clashes(rows: Rows, rec: UserRecord): set<Column>
  {
    (if rec.email in rows then {EmailColumn} else {})
    + (if UsnInUse(rows, rec.usn) then {UsnColumn} else {})
    + (if UsernameInUse(rows, rec.username) then {UsernameColumn} else {})
  }

  /** The `detail` of the 400 reply: the email clash first, then the USN,
      then the username, and a generic message when none is named. */
  function ConflictDetail(clashes: set<Column>): (d: string)
    ensures d == GenericConflict <==>
      EmailColumn !in clashes && UsnColumn !in clashes && UsernameColumn !in clashes
    ensures EmailColumn in clashes ==> d == EmailTaken
    ensures EmailColumn !in clashes && UsnColumn in clashes ==> d == UsnTaken
    ensures clashes == {UsernameColumn} ==> d == UsernameTaken
  {
    if EmailColumn in clashes then EmailTaken
    else if UsnColumn in clashes then UsnTaken
    else if UsernameColumn in clashes then UsernameTaken
    else GenericConflict
  }

  /** `register_user` on a table: the reply and the table afterwards.  The
      password is hashed before the table is touched, so a password passlib
      refuses ends the request with a 500 whatever the table holds.  Past
      that, it succeeds exactly when no row has the email, the USN or the
      username; then the table gains exactly the new row and keeps every
      other row, and otherwise it is unchanged and the reply names the
      clash. */
  function RegisterOutcome(rows: Rows, form: Form, salt: string): (r: (RegisterReply, Rows))
    ensures r.0.Registered? <==>
      && PasswordAccepted(form.password)
      && form.email !in rows && !UsnInUse(rows, ToLower(form.usn)) && !UsernameInUse(rows, form.username)
    ensures r.0.Registered? ==>
      && r.0.username == form.username
      && r.1 == rows[form.email := NewRecord(form, salt)]
      && |r.1| == |rows| + 1
      && (forall e :: e in rows ==> e in r.1 && r.1[e] == rows[e])
    ensures r.0.RegisterFailed? ==> r.1 == rows
    ensures !PasswordAccepted(form.password) ==> r.0 == RegisterFailed(500, InternalServerError)
    ensures PasswordAccepted(form.password) && r.0.RegisterFailed? ==>
      && r.0.status == 400
      && r.0.detail == (if form.email in rows then EmailTaken
                        else if UsnInUse(rows, ToLower(form.usn)) then UsnTaken
                        else UsernameTaken)
    ensures Unique(rows) ==> Unique(r.1)
  {
    match HashPassword(form.password, salt)
    case Err(_) => (RegisterFailed(500, InternalServerError), rows)
    case Ok(_) =>
      var rec := NewRecord(form, salt);
      var clashes := Clashes(rows, rec);
      if clashes != {} then
        (RegisterFailed(400, ConflictDetail(clashes)), rows)
      else
        assert EmailColumn !in clashes && UsnColumn !in clashes && UsernameColumn !in clashes;
        (Registered("Registration successful!", form.username), rows[rec.email := rec])
  }

  /** The dashboard label: students in year 3 or 4 get the placements
      dashboard, everyone else the label named after their role. */
  function Dashboard(role: string, studyYear: int): (d: string)
    ensures d == "student_placements" <==>
      (role == "student" && (studyYear == 3 || studyYear == 4)) || role == "student_placements"
    ensures d != "student_placements" ==> d == role
  {
    if role == "student" && studyYear in [3, 4] then "student_placements" else role
  }

  /** `login_user` on a table.  An unknown email and a wrong password get the
      same 401 reply; a correct password gets the stored role and study year
      and the dashboard derived from them.  A password passlib refuses makes
      `verify_password` raise, which ends the request with a 500, and that
      happens only when the email has a row. */
  function LoginOutcome(rows: Rows, email: string, password: string): (r: LoginReply)
    ensures r.LoggedIn? <==> email in rows && VerifyPassword(password, rows[email].passwordHash) == Ok(true)
    ensures r == LoginFailed(500, InternalServerError) <==> email in rows && !PasswordAccepted(password)
    ensures r.LoginFailed? ==> r == LoginFailed(401, InvalidCredentials) || r == LoginFailed(500, InternalServerError)
    ensures r.LoggedIn? ==>
      && r.role == rows[email].role
      && r.studyYear == rows[email].studyYear
      && r.dashboard == Dashboard(rows[email].role, rows[email].studyYear)
  {
    if email !in rows then LoginFailed(401, InvalidCredentials)
    else
      var user := rows[email];
      match VerifyPassword(password, user.passwordHash)
      case Err(_) => LoginFailed(500, InternalServerError)
      case Ok(matches) =>
        if matches then
          LoggedIn("Login successful", user.role, user.studyYear, Dashboard(user.role, user.studyYear))
        else
          LoginFailed(401, InvalidCredentials)
  }

  /** As written, the reply to a password passlib refuses (one of 4097
      characters, say) tells a registered email from an unknown one: the
      first gets a 500, the second the usual 401. */
  lemma RefusedPasswordRevealsAccount(rows: Rows, known: string, unknown: string, password: string)
    requires known in rows && unknown !in rows && |password| > MaxPasswordSize
    ensures LoginOutcome(rows, known, password) == LoginFailed(500, InternalServerError)
    ensures LoginOutcome(rows, unknown, password) == LoginFailed(401, InvalidCredentials)
  {
  }

  /** `login_user` with a refused password treated as a wrong one, as the
      uniform 401 intends. */
  function UniformLoginOutcome(rows: Rows, email: string, password: string): (r: LoginReply)
    ensures r.LoginFailed? ==> r == LoginFailed(401, InvalidCredentials)
    ensures r.LoggedIn? <==> LoginOutcome(rows, email, password).LoggedIn?
    ensures PasswordAccepted(password) ==> r == LoginOutcome(rows, email, password)
  {
    var reply := LoginOutcome(rows, email, password);
    if reply.LoginFailed? then LoginFailed(401, InvalidCredentials) else reply
  }

  /** With the correction, a failed login says nothing about whether the
      email is registered: every refused attempt, on a known or an unknown
      email, gets the same reply. */
  lemma {:induction false} UniformLoginHidesAccounts(rows: Rows, known: string, unknown: string, password: string)
    requires unknown !in rows
    requires !UniformLoginOutcome(rows, known, password).LoggedIn?
    ensures UniformLoginOutcome(rows, known, password) == UniformLoginOutcome(rows, unknown, password)
  {
    assert !LoginOutcome(rows, unknown, password).LoggedIn?;
  }

  /** Right after a successful registration, the email and password log in,
      with the role lower-cased, the study year as submitted and the
      dashboard derived from them; any other password is refused with the
      401, or, if passlib refuses it, ends in a 500. */
  lemma {:induction false} RegisteredUserCanLogIn(rows: Rows, form: Form, salt: string, attempt: string)
    requires RegisterOutcome(rows, form, salt).0.Registered?
    ensures var after := RegisterOutcome(rows, form, salt).1;
      && LoginOutcome(after, form.email, form.password)
           == LoggedIn("Login successful", ToLower(form.role), form.studyYear,
                       Dashboard(ToLower(form.role), form.studyYear))
      && (attempt != form.password && PasswordAccepted(attempt) ==>
            LoginOutcome(after, form.email, attempt) == LoginFailed(401, InvalidCredentials))
      && (!PasswordAccepted(attempt) ==>
            LoginOutcome(after, form.email, attempt) == LoginFailed(500, InternalServerError))
  {
    var after := RegisterOutcome(rows, form, salt).1;
    assert after[form.email] == NewRecord(form, salt);
    HashThenVerify(form.password, attempt, salt);
  }

  /** From the request as submitted: the table stores the validated model,
      whose email is normalised, while `login_user` looks the email up as
      typed.  So the login succeeds under the normalised address, under the
      typed one when normalising left it unchanged, and, on a table that had
      neither address, not under a typed address whose domain had an
      upper-case letter. */
  lemma {:induction false} SubmittedEmailLogIn(rows: Rows, input: Form, order: seq<Field>, salt: string)
    requires CoversAllFields(order) && Parse(input, order).Ok?
    requires RegisterOutcome(rows, Parse(input, order).value, salt).0.Registered?
    ensures var after := RegisterOutcome(rows, Parse(input, order).value, salt).1;
      && LoginOutcome(after, NormaliseEmail(input.email), input.password).LoggedIn?
      && (NormaliseEmail(input.email) == input.email ==> LoginOutcome(after, input.email, input.password).LoggedIn?)
      && (input.email !in rows && NormaliseEmail(input.email) != input.email ==>
            LoginOutcome(after, input.email, input.password) == LoginFailed(401, InvalidCredentials))
  {
    var form := Parse(input, order).value;
    var after := RegisterOutcome(rows, form, salt).1;
    RegisteredUserCanLogIn(rows, form, salt, input.password);
    assert form.email == NormaliseEmail(input.email) && form.password == input.password;
    if input.email !in rows && NormaliseEmail(input.email) != input.email {
      assert input.email !in after;
    }
  }

  /** A second registration with the same form is refused as an email clash
      and leaves the table as the first one left it. */
  lemma {:induction false} RepeatedRegistrationRefused(rows: Rows, form: Form, salt: string, salt': string)
    requires RegisterOutcome(rows, form, salt).0.Registered?
    ensures var after := RegisterOutcome(rows, form, salt).1;
      RegisterOutcome(after, form, salt') == (RegisterFailed(400, EmailTaken), after)
  {
    var after := RegisterOutcome(rows, form, salt).1;
    assert form.email in after;
  }

  class UserTable {
    var rows: Rows

    ghost predicate Valid()
      reads this
    {
      Unique(rows)
    }

    constructor ()
      ensures Valid() && rows == map[]
    {
      rows := map[];
    }

    /** `register_user`, given a form that has already been validated. */
    method Register(form: Form, salt: string) returns (reply: RegisterReply)
      requires Valid()
      modifies this
      ensures Valid()
      ensures (reply, rows) == RegisterOutcome(old(rows), form, salt)
    {
      var hashed := HashPassword(form.password, salt);
      if hashed.Err? {
        reply := RegisterFailed(500, InternalServerError);
        return;
      }
      var rec := NewRecord(form, salt);
      var clashes := Clashes(rows, rec);
      if clashes != {} {
        reply := RegisterFailed(400, ConflictDetail(clashes));
        return;
      }
      rows := rows[rec.email := rec];
      reply := Registered("Registration successful!", form.username);
    }

    /** `login_user` */
    method Login(email: string, password: string) returns (reply: LoginReply)
      ensures reply == LoginOutcome(rows, email, password)
    {
      if email !in rows {
        return LoginFailed(401, InvalidCredentials);
      }
      var user := rows[email];
      var verdict := VerifyPassword(password, user.passwordHash);
      if verdict.Err? {
        reply := LoginFailed(500, InternalServerError);
      } else if verdict.value {
        reply := LoggedIn("Login successful", user.role, user.studyYear, Dashboard(user.role, user.studyYear));
      } else {
        reply := LoginFailed(401, InvalidCredentials);
      }
    }
  }

  /** A CS student registers, the same request is repeated, then the
      student logs in and, in year 2, gets the plain student dashboard. */
  method StudentScenario()
  {
    var form := Form("a@x.com", "Student One", "stud1", "CS", "4cb23cs001", 2, "student", "abcdefgh");
    var table := new UserTable();
    var first := table.Register(form, "salt-1");
    assert first == Registered("Registration successful!", "stud1");
    var second := table.Register(form, "salt-2");
    // The detail is the model's priority among the three clashing columns.
    assert second == RegisterFailed(400, EmailTaken);
    var login := table.Login("a@x.com", "abcdefgh");
    assert IsLowerCase("student");
    ToLowerFacts("student");
    assert login == LoggedIn("Login successful", "student", 2, "student");
    var wrong := table.Login("a@x.com", "abcdefgx");
    var unknown := table.Login("b@x.com", "abcdefgh");
    assert wrong == unknown == LoginFailed(401, InvalidCredentials);
  }
}

=== FILE: validators.dfy ===
/** The two role-dependent validators of the registration form
    (`validate_usn_format` and `validate_study_year_by_role`) and the
    constants they and the declared field types use.

    Each validator is a function of the value being validated and of the
    `role` and `branch` it can see among the fields validated before it;
    `None` stands for a field that is absent from pydantic's `values`. */
module Validators {
  import opened Text
  import opened Results

  /** The values of the `branch` field's Literal type. */
  const AllowedBranches: seq<string> := ["CS", "AI", "CSBS", "CSD", "IS", "EC"]

  /** The values of the `role` field's Literal type. */
  const AllowedRoles: seq<string> := ["student", "faculty", "placement_cell"]

  /** Branch name to the two-letter code that sits inside a student USN. */
  const BranchCodes: map<string, string> :=
    map["CS" := "cs", "AI" := "ai", "CSBS" := "cb", "CSD" := "cd", "IS" := "is", "EC" := "ec"]

  const InternalBranchCodeError := "Internal branch code error."
  const EmployeeIdError := "Employee ID must be exactly 10 digits (MMyyIDNNNN)."
  const StudentYearError := "Student study_year must be between 1 and 4."

  /** A validation error: pydantic's own length and Literal errors, or a
      custom error with its error type and message. */
  datatype Failure =
    | TooShort(minLength: nat)
    | NotAllowed
    | Custom(kind: string, message: string)

  function UsnFormatError(code: string): string
  {
    "USN must be in the format 4cbYY[BranchCode]NNN, specific to the selected branch (" + code + ")."
  }

  function StaffYearError(role: string): string
  {
    role + " must have a study_year of 0."
  }

  predicate IsStaffRole(role: Option<string>)
  {
    role == Some("faculty") || role == Some("placement_cell")
  }

  /** `branch_map.get(branch.upper()) if branch else None` */
  function ExpectedBranchCode(branch: Option<string>): (code: Option<string>)
    ensures code.Some? <==> branch.Some? && ToUpper(branch.value) in BranchCodes
    ensures code.Some? ==> code.value == BranchCodes[ToUpper(branch.value)]
  {
    if branch.Some? && branch.value != "" && ToUpper(branch.value) in BranchCodes
    then Some(BranchCodes[ToUpper(branch.value)])
    else None
  }

  predicate EndsWithNewline(s: string) { |s| > 0 && s[|s| - 1] == '\n' }

  /** The text between `^` and `$` of the student pattern
      `4cb(\d{2})(<code>)(\d{3})`, compiled with IGNORECASE. */
  predicate StudentUsnBody(s: string, code: string)
  {
    && |s| == 8 + |code|
    && SameIgnoringCase(s[..3], "4cb")
    && IsDigits(s[3..5])
    && SameIgnoringCase(s[5..5 + |code|], code)
    && IsDigits(s[5 + |code|..])
  }

  /** `re.match` of the anchored student pattern: `$` matches at the very end
      of the string or just before a final newline.  For a lower-case branch
      code it accepts exactly the strings whose lower-cased form is
      canonical, with at most one newline after it. */
  predicate MatchesStudentUsn(s: string, code: string): (b: bool)
    ensures IsLowerCase(code) ==> (b <==> AcceptableStudentUsn(s, code))
  {
    PatternIffAcceptable(s, code);
    StudentUsnBody(s, code) || (EndsWithNewline(s) && StudentUsnBody(s[..|s| - 1], code))
  }

  /** `re.match(r"^\d{10}$", s)`: exactly ten digits, or ten digits and a
      final newline; whatever matches has no upper-case letter and so is its
      own lower-cased form. */
  predicate MatchesEmployeeId(s: string): (b: bool)
    ensures b <==> (|s| == 10 || |s| == 11) && IsDigits(s[..10]) && (|s| == 11 ==> s[10] == '\n')
    ensures b ==> |s| >= 10 && IsDigits(s[..10])
    ensures b ==> IsLowerCase(s) && ToLower(s) == s
  {
    if |s| == 10 && IsDigits(s) then
      assert s[..10] == s;
      DigitsAreLowerCase(s);
      ToLowerFacts(s);
      true
    else if EndsWithNewline(s) && |s| == 11 && IsDigits(s[..10]) then
      assert s[..|s| - 1] == s[..10];
      DigitsAreLowerCase(s);
      ToLowerFacts(s);
      true
    else
      false
  }

  /** `validate_usn_format`: the USN's required shape depends on the role the
      validator can see; whatever is accepted is returned lower-cased. */
  function ValidateUsn(v: string, role: Option<string>, branch: Option<string>): (r: Result<string, Failure>)
    ensures r.Ok? ==> r.value == ToLower(v) && IsLowerCase(r.value)
    ensures r.Err? ==> r.error.Custom? && (r.error.kind == "usn_validation" || r.error.kind == "id_validation")
    ensures role != Some("student") && !IsStaffRole(role) ==> r == Ok(ToLower(v))
  {
    ToLowerFacts(v);
    if role == Some("student") then
      var code := ExpectedBranchCode(branch);
      if code.None? then Err(Custom("usn_validation", InternalBranchCodeError))
      else if !MatchesStudentUsn(v, code.value) then Err(Custom("usn_validation", UsnFormatError(code.value)))
      else Ok(ToLower(v))
    else if IsStaffRole(role) then
      if !MatchesEmployeeId(v) then Err(Custom("id_validation", EmployeeIdError))
      else Ok(ToLower(v))
    else
      Ok(ToLower(v))
  }

  /** `validate_study_year_by_role`: students are in years 1 to 4, staff in
      year 0, and a value that is accepted comes back unchanged. */
  function ValidateStudyYear(v: int, role: Option<string>): (r: Result<int, Failure>)
    ensures r.Ok? <==> (role == Some("student") ==> 1 <= v <= 4) && (IsStaffRole(role) ==> v == 0)
    ensures r.Ok? ==> r.value == v
    ensures r.Err? ==> r.error.Custom? && r.error.kind == "role_year_mismatch"
    ensures r.Err? && role == Some("student") ==> r.error.message == StudentYearError
    ensures r.Err? && role != Some("student") ==> r.error.message == StaffYearError(role.value)
  {
    if role == Some("student") then
      if !(1 <= v <= 4) then Err(Custom("role_year_mismatch", StudentYearError)) else Ok(v)
    else if IsStaffRole(role) then
      if v != 0 then Err(Custom("role_year_mismatch", StaffYearError(role.value))) else Ok(v)
    else
      Ok(v)
  }

  // ---------------------------------------------------------------------
  // The student USN in canonical (lower-case) form, and what the validator
  // accepts stated in terms of it.

  /** `4cb`, two digits, the branch code, three digits, all lower-case. */
  predicate IsStudentUsn(u: string, code: string)
  {
    && |u| == 8 + |code|
    && u[..3] == "4cb"
    && IsDigits(u[3..5])
    && u[5..5 + |code|] == code
    && IsDigits(u[5 + |code|..])
  }

  /** A submitted student USN the validator is meant to accept: its
      lower-cased form is canonical, possibly followed by one newline. */
  predicate AcceptableStudentUsn(v: string, code: string)
  {
    IsStudentUsn(ToLower(v), code) || (EndsWithNewline(v) && IsStudentUsn(ToLower(v[..|v| - 1]), code))
  }

  /** Every branch the form accepts is already upper-case and has a code. */
  lemma AllowedBranchesHaveCodes(b: string)
    requires b in AllowedBranches
    ensures ToUpper(b) == b && b in BranchCodes
  {
    if b == "CS" { assert ToUpper(b) == "CS"; }
    else if b == "AI" { assert ToUpper(b) == "AI"; }
    else if b == "CSBS" { assert ToUpper(b) == "CSBS"; }
    else if b == "CSD" { assert ToUpper(b) == "CSD"; }
    else if b == "IS" { assert ToUpper(b) == "IS"; }
    else { assert ToUpper(b) == "EC"; }
  }

  lemma BranchCodesAreLowerCase(b: string)
    requires b in BranchCodes
    ensures IsLowerCase(BranchCodes[b]) && |BranchCodes[b]| == 2
  {
  }

  /** The pattern's body matches exactly the strings whose lower-cased form
      is canonical. */
  lemma {:induction false} BodyIffCanonical(t: string, code: string)
    requires IsLowerCase(code)
    ensures StudentUsnBody(t, code) <==> IsStudentUsn(ToLower(t), code)
  {
    ToLowerFacts(t);
    if |t| == 8 + |code| {
      var l := ToLower(t);
      assert IsLowerCase("4cb");
      SameIgnoringCaseLowered(t[..3], "4cb");
      SameIgnoringCaseLowered(t[5..5 + |code|], code);
      ToLowerSlice(t, 0, 3);
      ToLowerSlice(t, 3, 5);
      ToLowerSlice(t, 5, 5 + |code|);
      ToLowerSlice(t, 5 + |code|, |t|);
      ToLowerFacts(t[3..5]);
      ToLowerFacts(t[5 + |code|..]);
      assert l[..3] == ToLower(t[..3]);
      assert l[3..5] == ToLower(t[3..5]);
      assert l[5..5 + |code|] == ToLower(t[5..5 + |code|]);
      assert l[5 + |code|..] == ToLower(t[5 + |code|..]);
    }
  }

  /** The whole pattern, `$` included, in terms of the canonical form. */
  lemma PatternIffAcceptable(s: string, code: string)
    ensures IsLowerCase(code) ==>
      ((StudentUsnBody(s, code) || (EndsWithNewline(s) && StudentUsnBody(s[..|s| - 1], code)))
       <==> AcceptableStudentUsn(s, code))
  {
    if IsLowerCase(code) {
      BodyIffCanonical(s, code);
      if EndsWithNewline(s) {
        BodyIffCanonical(s[..|s| - 1], code);
      }
    }
  }

  /** For a student with a known branch, the USN is accepted exactly when it
      is `4cb` + 2 digits + the branch's code + 3 digits in any mix of case
      (with `$`'s allowance for one final newline), and the stored value is
      that USN in lower case; any other USN gets the format error naming the
      expected code. */
  lemma {:induction false} StudentUsnRule(v: string, branch: string)
    requires ToUpper(branch) in BranchCodes
    ensures var code := BranchCodes[ToUpper(branch)];
      var r := ValidateUsn(v, Some("student"), Some(branch));
      && (r.Ok? <==> AcceptableStudentUsn(v, code))
      && (r.Ok? ==> IsStudentUsn(r.value, code) || (EndsWithNewline(r.value) && IsStudentUsn(r.value[..|r.value| - 1], code)))
      && (r.Err? ==> r.error == Custom("usn_validation", UsnFormatError(code)))
  {
    var code := BranchCodes[ToUpper(branch)];
    BranchCodesAreLowerCase(ToUpper(branch));
    assert ExpectedBranchCode(Some(branch)) == Some(code);
    if EndsWithNewline(v) {
      ToLowerSlice(v, 0, |v| - 1);
      assert ToLower(v)[..|v| - 1] == ToLower(v[..|v| - 1]);
    }
  }

  /** A student whose branch is missing or unknown always gets the internal
      branch-code error, whatever the USN. */
  lemma StudentUsnWithoutBranch(v: string, branch: Option<string>)
    requires branch.None? || ToUpper(branch.value) !in BranchCodes
    ensures ValidateUsn(v, Some("student"), branch) == Err(Custom("usn_validation", InternalBranchCodeError))
  {
  }

  lemma DigitsAreLowerCase(s: string)
    requires IsDigits(s) || (EndsWithNewline(s) && IsDigits(s[..|s| - 1]))
    ensures IsLowerCase(s)
  {
    forall i | 0 <= i < |s| ensures !IsUpperLetter(s[i]) {
      if i < |s| - 1 || !EndsWithNewline(s) {
        assert IsDigit(s[i]);
      }
    }
  }

  /** For faculty and the placement cell, the USN field holds an employee ID:
      it is accepted exactly when it is ten digits (or ten digits and a final
      newline), and it is then stored unchanged. */
  lemma EmployeeIdRule(v: string, role: Option<string>, branch: Option<string>)
    requires IsStaffRole(role)
    ensures var r := ValidateUsn(v, role, branch);
      && (r.Ok? <==> (|v| == 10 || |v| == 11) && IsDigits(v[..10]) && (|v| == 11 ==> v[10] == '\n'))
      && (r.Ok? ==> r.value == v)
      && (r.Err? ==> r.error == Custom("id_validation", EmployeeIdError))
  {
  }

  /** A canonical student USN is lower-case throughout. */
  lemma CanonicalIsLowerCase(t: string, code: string)
    requires IsLowerCase(code) && IsStudentUsn(t, code)
    ensures IsLowerCase(t)
  {
    forall i | 0 <= i < |t| ensures !IsUpperLetter(t[i]) {
      if i < 3 { assert t[i] == t[..3][i]; }
      else if i < 5 { assert t[i] == t[3..5][i - 3]; }
      else if i < 5 + |code| { assert t[i] == t[5..5 + |code|][i - 5]; }
      else { assert t[i] == t[5 + |code|..][i - 5 - |code|]; }
    }
  }

  /** `$` lets one trailing newline through after a student USN, and the
      newline is kept in the returned value. */
  lemma StudentUsnWithTrailingNewline(t: string, branch: string)
    requires branch in AllowedBranches && IsStudentUsn(t, BranchCodes[branch])
    ensures ValidateUsn(t + "\n", Some("student"), Some(branch)) == Ok(t + "\n")
  {
    var s := t + "\n";
    var code := BranchCodes[branch];
    AllowedBranchesHaveCodes(branch);
    BranchCodesAreLowerCase(branch);
    CanonicalIsLowerCase(t, code);
    assert s[..|s| - 1] == t && EndsWithNewline(s);
    assert IsLowerCase(s);
    ToLowerFacts(s);
    ToLowerFacts(t);
    StudentUsnRule(s, branch);
  }

  /** The same allowance after an employee ID. */
  lemma EmployeeIdWithTrailingNewline(digits: string, role: Option<string>)
    requires IsStaffRole(role) && |digits| == 10 && IsDigits(digits)
    ensures ValidateUsn(digits + "\n", role, None) == Ok(digits + "\n")
  {
    var s := digits + "\n";
    assert s[..10] == digits;
    EmployeeIdRule(s, role, None);
  }
}
